=== FILE: README.md ===
# Automated cell-line screening, modelled in Dafny

This project models the core of a simulated screening campaign for CHO cell clones that
produce a therapeutic antibody (`cell_line_screening.py`). A campaign creates a fixed number of
clones. Each clone draws its intrinsic parameters at random and clamps them into fixed
intervals. A liquid-handling robot then takes the plate through three steps:

- seeding on day 0, which writes one log entry per clone;
- feeding and sampling on day 3, which records each clone's density and writes a log entry;
- harvest and analysis on day 7, which records density, viability and antibody titer and builds
  one result row per clone, holding a composite quality score.

Finally the ten rows with the highest score are selected.

Modules:

- `Rounding` (`rounding.dfy`): Python's `round(x, n)` on exact reals. The result is the
  multiple of 10^-n nearest to x, and a tie goes to the even multiple.
- `CloneIds` (`clone_ids.dfy`): the identifier `Clone_` followed by the clone number,
  zero-padded to three digits. It comes with a parser that reads the number back.
- `CellLine` (`cell_line.dfy`): one clone as a value, built from its draws. Also `grow`,
  `produce_antibody` and `score`.
- `Selection` (`selection.dfy`): `nlargest(n, 'Score')` with pandas' default `keep='first'`.
  The model fixes the order of tied scores as `keep='first'` describes it: a ranking of row
  numbers, higher score first and the earlier row first on a tie, cut to its first n rows.
  The program's own run asks for 10 rows from a table of 96, the case in which `keep='first'` fixes this order.
- `Screening` (`screening.dfy`): the campaign object. It is a class holding the clone list
  and the screening log, which its day methods update in place. Each method's loop is proved
  against a function that gives the whole new state. The selection and the full campaign run
  are in this module too.

Values the program draws at random become parameters:

- `draws(i)` holds the draws of the i-th clone made;
- `noise(i)` is the titer noise factor of the i-th clone harvested;
- `np.exp` is a parameter `exp`.

The lemmas that need `exp` to be positive or non-decreasing say so in their `requires`.

## Model

| member | source | states |
|---|---|---|
| Rounding.RoundHalfEven | cell_line_screening.py:86 | The integer returned lies within one half of its argument. |
| Rounding.RoundHalfEvenExactAndTies | cell_line_screening.py:86 | An integer rounds to itself, and an exact tie goes to the even neighbour (banker's rounding, as Python's round does). |
| Rounding.RoundHalfEvenMonotone | cell_line_screening.py:86 | Rounding to an integer never reverses the order of two values. |
| Rounding.RoundTo | cell_line_screening.py:86 | round(x, n) is within half a unit of the last kept decimal of x. |
| Rounding.RoundToMonotone | cell_line_screening.py:86 | round(x, n) never reverses the order of two values. |
| Rounding.RoundToIdempotent | cell_line_screening.py:86 | Rounding an already rounded value changes nothing. |
| CloneIds.ZeroPadShape | cell_line_screening.py:95 | `:03d` padding only puts '0' characters in front: the digits end the padded string. |
| CloneIds.Decimal | cell_line_screening.py:95 | The decimal form of a number is at least one character long and made only of the digits '0' to '9'. |
| CloneIds.ZeroPad | cell_line_screening.py:95 | Padding to width w gives a string of length max(w, original length). |
| CloneIds.CloneId | cell_line_screening.py:95 | The name of clone k starts with "Clone_" and is at least nine characters long. Its digits, exact width and round trip are stated by CloneIdRoundTrip, and its injectivity by CloneIdInjective. |
| CloneIds.CloneIdRoundTrip | cell_line_screening.py:95 | After its "Clone_" prefix, every identifier holds only decimal digits, exactly max(3, digit count of the number) of them, and those digits read back as the clone number. |
| CloneIds.CloneIdInjective | cell_line_screening.py:95 | Two clone numbers give the same identifier exactly when they are equal. |
| CloneIds.CloneIdOfOne | cell_line_screening.py:95 | The first clone is named "Clone_001". |
| CloneIds.CloneIdOfNinetySix | cell_line_screening.py:95 | Clone 96 is named "Clone_096". |
| CloneIds.CloneIdOfThousand | cell_line_screening.py:95 | Clone 1000 is named "Clone_1000": numbers wider than three digits are not cut. |
| CellLine.Clamp | cell_line_screening.py:25-27 | max(lo, min(hi, x)) lies in [lo, hi]. It is x when x is inside, lo below and hi above. |
| CellLine.NewClone | cell_line_screening.py:10-34 | Whatever the draws, the base titer lies in [0.1, 6.0], viability in [60, 99] and growth rate in [0.015, 0.050]. Draws already inside keep their value, and draws below or above are moved to the lower or upper end. Stability, glycosylation and aggregation are kept as drawn. Day-0 density is 0.5e6 and nothing is observed yet. |
| CellLine.Grow | cell_line_screening.py:36-49 | Density never exceeds 8e6 and viability never falls below 60. For days >= 0, viability is at most max(60, the clone's viability). |
| CellLine.GrowViabilityNonIncreasing | cell_line_screening.py:46-47 | Viability never rises as days increase. |
| CellLine.GrowDensityNonDecreasing | cell_line_screening.py:39-43 | With a non-decreasing exponential, a non-negative rate and a non-negative seed density, density never falls as days increase. |
| CellLine.GrowDensityPositive | cell_line_screening.py:42-43 | With a positive exponential and a positive seed density, density stays positive. |
| CellLine.RawTiter | cell_line_screening.py:60 | The titer before noise is not negative when the base titer and the days are not. |
| CellLine.ProduceAntibody | cell_line_screening.py:51-65 | The titer is at least 0.1 g/L for every noise factor, zero and negative ones included. |
| CellLine.ProduceAntibodyIgnoresDensity | cell_line_screening.py:54-60 | The titer does not depend on the exponential: only grow's viability is used. |
| CellLine.ProduceAntibodyMonotoneInNoise | cell_line_screening.py:60-65 | A larger noise factor never gives a smaller titer. |
| CellLine.TiterScore | cell_line_screening.py:70 | The titer sub-score is at most 1, is 0 for an absent or zero titer, and is not negative for a non-negative titer. |
| CellLine.ViabilityScore | cell_line_screening.py:71 | The viability sub-score is 0 for an absent or zero viability, and lies in [0, 1] for a viability in [0, 100]. |
| CellLine.GrowthScore | cell_line_screening.py:72 | The growth sub-score is at most 1, and not negative for a non-negative rate. |
| CellLine.StabilityBonus | cell_line_screening.py:73 | The stability bonus lies in [0, 0.2] and is positive exactly for a stable clone. Its size in the weighted sum, exactly 0.2, is stated by BonusesAdd. |
| CellLine.QualityBonus | cell_line_screening.py:74 | The glycosylation bonus lies in [0, 0.15] and is positive exactly for an Optimal pattern. Its size in the weighted sum, exactly 0.15 over Good or Poor, is stated by BonusesAdd. |
| CellLine.QualityPenalty | cell_line_screening.py:75 | The aggregation penalty lies in [-0.1, 0] and is negative exactly above 5 % aggregates. Its effect on the weighted sum is stated by AggregationPenaltyThreshold. |
| CellLine.RawScore | cell_line_screening.py:77-84 | For a clone within its bounds, the weighted sum before rounding lies between -0.1 and 1.0975. Its dependence on each input is stated by AggregationPenaltyThreshold, TiterScoreCapped, GrowthScoreCapped and AbsentObservationCountsAsZero. |
| CellLine.Score | cell_line_screening.py:67-86 | The score has at most three decimals (rounding it again changes nothing) and lies within 0.0005 of the weighted sum of the sub-scores, bonuses and penalty. |
| CellLine.AggregationPenaltyThreshold | cell_line_screening.py:75 | Aggregation of exactly 5.0 or less is not penalised. Any level above 5.0 costs exactly 0.1. |
| CellLine.BonusesAdd | cell_line_screening.py:73-84 | A stable clone scores exactly 0.2 more than the same clone unstable, and an Optimal pattern exactly 0.15 more than Good or Poor, which score alike. |
| CellLine.TiterScoreCapped | cell_line_screening.py:70 | All titers of 5 g/L and above give the same weighted sum. |
| CellLine.GrowthScoreCapped | cell_line_screening.py:72 | All growth rates of 0.045 and above give the same weighted sum. |
| CellLine.AbsentObservationCountsAsZero | cell_line_screening.py:70-71 | An absent day-7 titer or viability contributes what an observed zero would. With both absent, only growth, stability, glycosylation and aggregation count. |
| CellLine.HarvestedScoreRange | cell_line_screening.py:67-86 | A clone within the campaign's bounds, with titer and viability observed, scores between 0.091 and 1.098. |
| Selection.BeforeOrder | cell_line_screening.py:221 | "Higher score first, earlier row first on a tie" is a strict total order on rows. |
| Selection.Insert | cell_line_screening.py:221 | Placing a row into a ranked list keeps it ranked, adds exactly that row, and grows the list by one. |
| Selection.RankFirst | cell_line_screening.py:221 | The first m rows come out ranked, each exactly once. |
| Selection.TopCount | cell_line_screening.py:221 | nlargest(n) keeps no rows for n <= 0, n rows when 0 < n <= rows, and all rows when n >= rows: min(n, rows) for positive n. |
| Selection.TopIndices | cell_line_screening.py:221 | The kept rows are TopCount many, ranked and distinct. Every kept row comes before every row left out. |
| Selection.TopIndicesOrder | cell_line_screening.py:221 | The kept scores are non-increasing. A row left out scores lower than every kept row, or the same and comes later in the table. |
| Screening.InitialClones | cell_line_screening.py:92-95 | A campaign of numClones clones holds max(numClones, 0) of them. The i-th is named CloneId(i+1) and has parent "CHO-K1", is exactly NewClone of that name, "CHO-K1" and draws(i), so it lies within its bounds and has nothing observed. |
| Screening.InitialClonesDistinct | cell_line_screening.py:95 | No two clones of a new campaign share an identifier. |
| Screening.SeedEntry | cell_line_screening.py:117-123 | A day-0 entry is a seeding of its clone, dated day 0, of 200 uL at the clone's day-0 density. |
| Screening.Feed | cell_line_screening.py:146-147 | Day 3 sets day3Density to grow(3)'s density and changes nothing else of the clone. A clone within its bounds stays within them. |
| Screening.FeedEntry | cell_line_screening.py:146-157 | A day-3 entry is a feed-and-sample of its clone, dated day 3, with 50 uL fed and 50 uL sampled. It records grow(3)'s density and viability, so a density of at most 8e6 and a viability of at least 60. |
| Screening.Harvest | cell_line_screening.py:183-188 | Day 7 sets the three day-7 observations from grow(7) and produce_antibody(7), and changes nothing else. The observations respect their bounds, and a clone within its bounds stays within them. |
| Screening.Row | cell_line_screening.py:190-200 | A result row carries the clone's id, its glycosylation pattern and its score(), taken after the update. Stable is "Yes" or "No" as the clone is. Titer and VCD (in millions per mL) are rounded to two decimals, viability and aggregates to one, growth rate to four. Display rounding keeps titer >= 0.1, viability >= 60 and VCD <= 8. |
| Screening.DisplayRoundingKeepsBounds | cell_line_screening.py:192-194 | round(titer, 2), round(viability, 1) and round(density / 1e6, 2) never cross the bounds 0.1, 60 and 8. |
| Screening.SeedLog | cell_line_screening.py:116-123 | The day-0 loop's entries: one per clone, in clone order, the i-th being SeedEntry of the i-th clone. |
| Screening.FeedLog | cell_line_screening.py:145-157 | The day-3 loop's entries: one per clone, in clone order, the i-th being FeedEntry of the i-th clone. |
| Screening.FedClones | cell_line_screening.py:145-147 | The clones after the day-3 loop: as many as before, the i-th being Feed of the i-th clone. |
| Screening.HarvestedClones | cell_line_screening.py:181-188 | The clones after the day-7 loop: as many as before, the i-th being Harvest of the i-th clone with noise draw noise(i). |
| Screening.ResultTable | cell_line_screening.py:190-200 | The day-7 result table: one row per harvested clone, in clone order, the i-th being Row of the i-th clone. |
| Screening.FedClonesKeepInvariant | cell_line_screening.py:145-147 | Day 3 keeps every clone's identifier and bounds, so distinct names stay distinct. |
| Screening.HarvestedClonesInRange | cell_line_screening.py:181-200 | After day 7 every clone is harvested, within its bounds and under its old name. Every row's score lies in [0.091, 1.098], and distinct names stay distinct. |
| Screening.SelectTopClones | cell_line_screening.py:214-221 | The selection holds TopCount(n, rows) rows in non-increasing score order, taken from distinct rows of the table. Every row left out scores lower than each row taken, or the same and comes later. |
| Screening.SelectedIdsDistinct | cell_line_screening.py:221 | When the table names each clone once, so does the selection. |
| Screening.AutomatedScreening.constructor | cell_line_screening.py:92-96 | The campaign keeps numClones and plateFormat, its clones are InitialClones of the draws, the log is empty, and the invariant (count, distinct names, bounds) holds. |
| Screening.AutomatedScreening.Day0SeedPlates | cell_line_screening.py:116-123 | One seeding entry per clone is appended to the log, in clone order. No clone changes, and the invariant is kept. |
| Screening.AutomatedScreening.Day3FeedAndSample | cell_line_screening.py:145-157 | Every clone is replaced by Feed of itself, in place. One feed-and-sample entry per clone is appended in clone order, and the invariant is kept. |
| Screening.AutomatedScreening.Day7HarvestAndAnalyze | cell_line_screening.py:181-200 | Every clone is replaced by Harvest of itself with its own noise draw and is then harvested. The rows are the result table of the updated clones, in clone order, and the invariant is kept. |
| Screening.AutomatedScreening.RunFullScreeningCampaign | cell_line_screening.py:242-263 | After day 0, day 3 and day 7 in that order, the clones are fed and then harvested. The log gains the day-0 entries and then the day-3 entries, all scores lie in [0.091, 1.098], and the selection is SelectTopClones(results, 10) with distinct clone names. |

## Left out

- Printing, `input`, the campaign summary and the CSV file are not modelled: they are presentation and I/O. These lines raise for a campaign of zero clones (`self.clones[0]` on day 0, reading the titer column of the empty day-7 table at cell_line_screening.py:206, the division by `num_clones` in the summary), so that failure is not modelled either.
- The summary statistics over the data frame (mean, max, counts) are library calls on floats and are not modelled. Building the pandas DataFrame is modelled as a sequence of rows.
- `datetime.now()`, `timedelta` and the date strings: the start date and its derived dates are omitted.
- The random distributions (`random.gauss`, `random.choice`, `random.uniform`) are not modelled: their outcomes are the parameters `draws` and `noise`. Nothing constrains a draw to the support or the weights of its distribution.
- `np.exp` is a parameter. Its positivity and monotonicity are hypotheses of the lemmas that use them.
- Floating point is modelled as exact reals. Rounding is exact half-even on the real value, whereas Python rounds the nearest double (`round(2.675, 2)` gives 2.67 there). Rounding is defined for at most four decimals, which is all the program uses. The VCD column divides a numpy value, so its `round(density / 1e6, 2)` is numpy's rounding (scale, round to even, unscale), which can differ from Python's float `round` in the last place; the model rounds it like every other column.
- The unused local `qP` in `produce_antibody` has no effect and is not modelled.
- `plate_format` is stored by the constructor but only used by the day-0 narration, which is not modelled.
- The default arguments (`num_clones=96` and `plate_format='96-well'` of the constructor, `n=10` of `select_top_clones`) are not modelled: the model takes every argument explicitly, and the full campaign passes n = 10, as its call in the source does.
- Each clone is a value held in the campaign's sequence. The day steps replace the clone at each position, where the source mutates the clone object. The two agree because nothing else holds a reference to a clone, but aliasing is not modelled.
- `select_top_clones` is a function of the table and `n` rather than a method, since it reads no campaign state. When the table has no rows, pandas raises for the missing Score column; the model returns an empty selection instead.
- The order of tied scores when n is at least the number of rows is not modelled as pandas produces it. Pandas then sorts the whole column instead of selecting, and that sort need not keep earlier rows first; the model keeps the earlier-first order in that case too.
- The aggregation level is not clamped, in the model as in the source.

=== FILE: cell_line.dfy ===
/** One CHO cell-line candidate: its intrinsic parameters, drawn once at creation and
    clamped into fixed intervals, its day-0/3/7 observations, and the biological model
    that turns elapsed days into density, viability and antibody titer, plus the
    composite score used for ranking. */
module CellLine {
  import opened Rounding

  datatype Option<T> = None | Some(value: T)

  datatype Glycosylation = Optimal | Good | Poor

  /** The outcomes of the random draws a new clone makes, in the order it makes them. */
  datatype Draws = Draws(
    baseTiter: real,                   // normal, mean 2.5 g/L, sd 1.5
    growthRate: real,                  // normal, mean 0.032 per hour, sd 0.008
    viability: real,                   // normal, mean 94 %, sd 6
    stability: bool,                   // true in three cases out of four
    glycosylationPattern: Glycosylation,
    aggregationLevel: real)            // uniform over [0.5, 8.0] %

  datatype Clone = Clone(
    id: string,
    parent: string,
    baseTiter: real,
    growthRate: real,
    viability: real,
    stability: bool,
    glycosylationPattern: Glycosylation,
    aggregationLevel: real,
    day0Density: real,
    day3Density: Option<real>,
    day7Density: Option<real>,
    day7Viability: Option<real>,
    day7Titer: Option<real>)

  /** Cells per mL at seeding, and the density at which growth saturates. */
  const SeedDensity: real := 500000.0
  const PeakDensity: real := 8000000.0
  /** Viability (%) never falls below this floor, and titer (g/L) never below this one. */
  const ViabilityFloor: real := 60.0
  const TiterFloor: real := 0.1

  function Min(a: real, b: real): real { if a <= b then a else b }
  function Max(a: real, b: real): real { if a >= b then a else b }

  /** max(lo, min(hi, x)): x pulled into [lo, hi]. */
  function Clamp(lo: real, hi: real, x: real): (r: real)
    requires lo <= hi
    ensures lo <= r <= hi
    ensures lo <= x <= hi ==> r == x
    ensures x < lo ==> r == lo
    ensures x > hi ==> r == hi
  {
    Max(lo, Min(hi, x))
  }

  /** The clamp intervals of the intrinsic parameters. */
  predicate IntrinsicInRange(c: Clone) {
    && 0.1 <= c.baseTiter <= 6.0
    && 60.0 <= c.viability <= 99.0
    && 0.015 <= c.growthRate <= 0.050
  }

  /** A clone as created: seeded at the fixed density, nothing observed yet. */
  predicate Unobserved(c: Clone) {
    && c.day0Density == SeedDensity
    && c.day3Density == None
    && c.day7Density == None
    && c.day7Viability == None
    && c.day7Titer == None
  }

  /** Whatever has been observed lies within the bounds the model guarantees. */
  predicate ObservationsInRange(c: Clone) {
    && (c.day3Density.Some? ==> c.day3Density.value <= PeakDensity)
    && (c.day7Density.Some? ==> c.day7Density.value <= PeakDensity)
    && (c.day7Viability.Some? ==> ViabilityFloor <= c.day7Viability.value <= 99.0)
    && (c.day7Titer.Some? ==> c.day7Titer.value >= TiterFloor)
  }

  /** The invariant every clone of a campaign keeps from creation to the end. */
  predicate WellFormed(c: Clone) {
    IntrinsicInRange(c) && c.day0Density == SeedDensity && ObservationsInRange(c)
  }

  /** A new clone: whatever the draws, the clamped parameters lie in their intervals;
      draws already inside an interval are kept exactly, draws outside it are moved to the
      nearer end; nothing is observed yet. */
  function NewClone(id: string, parent: string, d: Draws): (c: Clone)
    ensures c.id == id && c.parent == parent
    ensures IntrinsicInRange(c) && Unobserved(c) && WellFormed(c)
    ensures 0.1 <= d.baseTiter <= 6.0 ==> c.baseTiter == d.baseTiter
    ensures d.baseTiter < 0.1 ==> c.baseTiter == 0.1
    ensures d.baseTiter > 6.0 ==> c.baseTiter == 6.0
    ensures 60.0 <= d.viability <= 99.0 ==> c.viability == d.viability
    ensures d.viability < 60.0 ==> c.viability == 60.0
    ensures d.viability > 99.0 ==> c.viability == 99.0
    ensures 0.015 <= d.growthRate <= 0.050 ==> c.growthRate == d.growthRate
    ensures d.growthRate < 0.015 ==> c.growthRate == 0.015
    ensures d.growthRate > 0.050 ==> c.growthRate == 0.050
    ensures c.stability == d.stability && c.glycosylationPattern == d.glycosylationPattern
    ensures c.aggregationLevel == d.aggregationLevel
  {
    Clone(id, parent,
          Clamp(0.1, 6.0, d.baseTiter),
          Clamp(0.015, 0.050, d.growthRate),
          Clamp(60.0, 99.0, d.viability),
          d.stability, d.glycosylationPattern, d.aggregationLevel,
          SeedDensity, None, None, None, None)
  }

  // ---------------------------------------------------------------------------
  // Growth and production. The exponential function is a parameter of the model;
  // the lemmas that need it ask only that it be positive or non-decreasing.

  ghost predicate IsPositive(exp: real -> real) {
    forall x :: exp(x) > 0.0
  }

  ghost predicate IsNonDecreasing(exp: real -> real) {
    forall x, y :: x <= y ==> exp(x) <= exp(y)
  }

  /** A (density, viability) pair as grow returns it. */
  datatype Reading = Reading(density: real, viability: real)

  /** The exponent of grow: the hourly rate times the elapsed hours. */
  function GrowthExponent(c: Clone, days: real): real {
    c.growthRate * (days * 24.0)
  }

  /** np.exp of that exponent: the factor by which the seeding density has grown. */
  function GrowthFactor(c: Clone, days: real, exp: real -> real): real {
    exp(GrowthExponent(c, days))
  }

  /** a * b, named: grow and produce_antibody multiply two quantities that are both unknown
      here, and keeping that product a term of its own keeps their definitions linear. */
  function Times(a: real, b: real): real { a * b }

  /** Multiplying by a factor that is not negative keeps order. */
  lemma TimesMonotone(k: real, a: real, b: real)
    requires k >= 0.0 && a <= b
    ensures Times(k, a) <= Times(k, b)
  {
    assert k * b - k * a == k * (b - a);
  }

  /** Density after `days` of exponential growth at the clone's hourly rate, capped at the
      peak density; viability after a loss of half a point per day, floored at 60 %. */
  function Grow(c: Clone, days: real, exp: real -> real): (r: Reading)
    ensures r.density <= PeakDensity
    ensures r.viability >= ViabilityFloor
    ensures days >= 0.0 ==> r.viability <= Max(ViabilityFloor, c.viability)
  {
    var density := Min(Times(c.day0Density, GrowthFactor(c, days, exp)), PeakDensity);
    var viability := Max(ViabilityFloor, c.viability - days * 0.5);
    Reading(density, viability)
  }

  /** Viability never rises as time passes. */
  lemma GrowViabilityNonIncreasing(c: Clone, d1: real, d2: real, exp: real -> real)
    requires d1 <= d2
    ensures Grow(c, d2, exp).viability <= Grow(c, d1, exp).viability
  {
  }

  /** With a non-decreasing exponential, density never falls as time passes. */
  lemma {:induction false} GrowDensityNonDecreasing(c: Clone, d1: real, d2: real, exp: real -> real)
    requires IsNonDecreasing(exp)
    requires c.growthRate >= 0.0 && c.day0Density >= 0.0 && d1 <= d2
    ensures Grow(c, d1, exp).density <= Grow(c, d2, exp).density
  {
    assert GrowthExponent(c, d1) <= GrowthExponent(c, d2) by {
      assert GrowthExponent(c, d2) - GrowthExponent(c, d1) == c.growthRate * ((d2 - d1) * 24.0);
    }
    assert GrowthFactor(c, d1, exp) <= GrowthFactor(c, d2, exp);
    TimesMonotone(c.day0Density, GrowthFactor(c, d1, exp), GrowthFactor(c, d2, exp));
  }

  /** With a positive exponential, a seeded clone's density stays positive. */
  lemma GrowDensityPositive(c: Clone, days: real, exp: real -> real)
    requires IsPositive(exp) && c.day0Density > 0.0
    ensures Grow(c, days, exp).density > 0.0
  {
    assert GrowthFactor(c, days, exp) > 0.0;
    assert Times(c.day0Density, GrowthFactor(c, days, exp)) > 0.0;
  }

  /** The titer before noise: the base titer scaled by the elapsed fraction of a week and by
      grow's viability as a fraction. */
  function RawTiter(c: Clone, days: real, exp: real -> real): (raw: real)
    ensures c.baseTiter >= 0.0 && days >= 0.0 ==> raw >= 0.0
  {
    var reading := Grow(c, days, exp);
    (c.baseTiter * days / 7.0) * (reading.viability / 100.0)
  }

  /** Titer after `days`: the raw titer times the noise factor drawn for this call, floored
      at 0.1 g/L. */
  function ProduceAntibody(c: Clone, days: real, noise: real, exp: real -> real): (titer: real)
    ensures titer >= TiterFloor
  {
    Max(TiterFloor, Times(RawTiter(c, days, exp), noise))
  }

  /** The titer uses grow's viability only: the density, and so the exponential, play no part. */
  lemma ProduceAntibodyIgnoresDensity(c: Clone, days: real, noise: real, e1: real -> real, e2: real -> real)
    ensures ProduceAntibody(c, days, noise, e1) == ProduceAntibody(c, days, noise, e2)
  {
  }

  /** A larger noise draw never gives a smaller titer. */
  lemma ProduceAntibodyMonotoneInNoise(c: Clone, days: real, n1: real, n2: real, exp: real -> real)
    requires c.baseTiter >= 0.0 && days >= 0.0 && n1 <= n2
    ensures ProduceAntibody(c, days, n1, exp) <= ProduceAntibody(c, days, n2, exp)
  {
    TimesMonotone(RawTiter(c, days, exp), n1, n2);
  }

  // ---------------------------------------------------------------------------
  // The composite score.

  /** Python truthiness of an optional number: absent and zero are both false. */
  predicate Truthy(o: Option<real>) {
    o.Some? && o.value != 0.0
  }

  /** Day-7 titer against a 5 g/L target, capped at 1; absent counts as 0. */
  function TiterScore(t: Option<real>): (s: real)
    ensures s <= 1.0
    ensures !Truthy(t) ==> s == 0.0
    ensures t.Some? && t.value >= 0.0 ==> s >= 0.0
  {
    if Truthy(t) then Min(1.0, t.value / 5.0) else 0.0
  }

  /** Day-7 viability as a fraction; absent counts as 0. */
  function ViabilityScore(v: Option<real>): (s: real)
    ensures !Truthy(v) ==> s == 0.0
    ensures v.Some? && 0.0 <= v.value <= 100.0 ==> 0.0 <= s <= 1.0
  {
    if Truthy(v) then v.value / 100.0 else 0.0
  }

  /** Growth rate against 0.045 per hour, capped at 1. */
  function GrowthScore(rate: real): (s: real)
    ensures s <= 1.0
    ensures rate >= 0.0 ==> s >= 0.0
  {
    Min(1.0, rate / 0.045)
  }

  /** A stable clone earns a bonus of 0.2; an unstable one earns none. */
  function StabilityBonus(stable: bool): (b: real)
    ensures 0.0 <= b <= 0.2
    ensures b > 0.0 <==> stable
  {
    if stable then 0.2 else 0.0
  }

  /** An Optimal glycosylation pattern earns a bonus of 0.15; Good and Poor earn none. */
  function QualityBonus(g: Glycosylation): (b: real)
    ensures 0.0 <= b <= 0.15
    ensures b > 0.0 <==> g == Optimal
  {
    if g == Optimal then 0.15 else 0.0
  }

  /** The aggregation penalty: strictly more than 5 % aggregates costs 0.1. */
  function QualityPenalty(aggregationLevel: real): (p: real)
    ensures -0.1 <= p <= 0.0
    ensures p < 0.0 <==> aggregationLevel > 5.0
  {
    if aggregationLevel > 5.0 then -0.1 else 0.0
  }

  /** The weighted sum before rounding: 0.40 titer, 0.25 viability, 0.10 growth, plus the
      bonuses and the penalty. For a clone within its bounds it lies between -0.1 (nothing
      observed, no bonus, penalised) and 1.0975 (every sub-score at its bound, both bonuses). */
  function RawScore(c: Clone): (r: real)
    ensures WellFormed(c) ==> -0.1 <= r <= 1.0975
  {
    TiterScore(c.day7Titer) * 0.40
    + ViabilityScore(c.day7Viability) * 0.25
    + GrowthScore(c.growthRate) * 0.10
    + StabilityBonus(c.stability)
    + QualityBonus(c.glycosylationPattern)
    + QualityPenalty(c.aggregationLevel)
  }

  /** score(): the weighted sum rounded to three decimals. It reads the clone and nothing
      else, so two calls on the same clone agree. */
  function Score(c: Clone): (s: real)
    ensures RoundTo(s, 3) == s
    ensures RawScore(c) - 0.0005 <= s <= RawScore(c) + 0.0005
  {
    RoundToIdempotent(RawScore(c), 3);
    RoundTo(RawScore(c), 3)
  }

  /** The penalty applies exactly when aggregation exceeds 5.0: a level of exactly 5.0
      scores like any lower level, and every higher level scores 0.1 less. */
  lemma AggregationPenaltyThreshold(c: Clone, level: real)
    ensures level <= 5.0 ==> RawScore(c.(aggregationLevel := level)) == RawScore(c.(aggregationLevel := 5.0))
    ensures level > 5.0 ==> RawScore(c.(aggregationLevel := level)) == RawScore(c.(aggregationLevel := 5.0)) - 0.1
  {
  }

  /** Titers of 5 g/L and above all score the same: the titer sub-score is capped. */
  lemma TiterScoreCapped(c: Clone, t1: real, t2: real)
    requires t1 >= 5.0 && t2 >= 5.0
    ensures RawScore(c.(day7Titer := Some(t1))) == RawScore(c.(day7Titer := Some(t2)))
  {
  }

  /** Stability adds exactly 0.2 to the weighted sum, and an Optimal glycosylation pattern
      exactly 0.15 over Good or Poor, whatever else the clone is. */
  lemma BonusesAdd(c: Clone)
    ensures RawScore(c.(stability := true)) == RawScore(c.(stability := false)) + 0.2
    ensures RawScore(c.(glycosylationPattern := Optimal)) == RawScore(c.(glycosylationPattern := Good)) + 0.15
    ensures RawScore(c.(glycosylationPattern := Optimal)) == RawScore(c.(glycosylationPattern := Poor)) + 0.15
    ensures RawScore(c.(glycosylationPattern := Good)) == RawScore(c.(glycosylationPattern := Poor))
  {
  }

  /** Growth rates of 0.045 per hour and above all score the same: the growth sub-score is capped. */
  lemma GrowthScoreCapped(c: Clone, r1: real, r2: real)
    requires r1 >= 0.045 && r2 >= 0.045
    ensures RawScore(c.(growthRate := r1)) == RawScore(c.(growthRate := r2))
  {
  }

  /** An absent day-7 titer or viability contributes exactly what an observed zero would. */
  lemma AbsentObservationCountsAsZero(c: Clone)
    ensures RawScore(c.(day7Titer := None)) == RawScore(c.(day7Titer := Some(0.0)))
    ensures RawScore(c.(day7Viability := None)) == RawScore(c.(day7Viability := Some(0.0)))
    ensures RawScore(c.(day7Titer := None, day7Viability := None))
            == GrowthScore(c.growthRate) * 0.10 + StabilityBonus(c.stability)
               + QualityBonus(c.glycosylationPattern) + QualityPenalty(c.aggregationLevel)
  {
  }

  /** A well-formed clone with its day-7 titer and viability observed scores between
      0.091 and 1.098 once rounded. */
  lemma {:induction false} HarvestedScoreRange(c: Clone)
    requires WellFormed(c) && c.day7Titer.Some? && c.day7Viability.Some?
    ensures 0.091 <= Score(c) <= 1.098
  {
    var raw := RawScore(c);
    assert TiterScore(c.day7Titer) >= 0.02;
    assert ViabilityScore(c.day7Viability) >= 0.6;
    assert GrowthScore(c.growthRate) >= 0.015 / 0.045;
    assert 0.091 <= raw <= 1.0975;
    RoundToMonotone(0.091, raw, 3);
    RoundToMonotone(raw, 1.0975, 3);
    assert RoundHalfEven(0.091 * 1000.0) == 91;
    assert RoundHalfEven(1.0975 * 1000.0) == 1098;
  }
}

=== FILE: clone_ids.dfy ===
/** Clone identifiers: the campaign names its k-th clone (counting from 1)
    "Clone_" followed by k in decimal, zero-padded to at least three digits. */
module CloneIds {

  function DigitChar(d: nat): (c: char)
    requires d < 10
    ensures '0' <= c <= '9' && DigitValue(c) == d
  {
    (48 + d) as char
  }

  /** The value of a decimal digit character. */
  function DigitValue(c: char): int {
    c as int - 48
  }

  /** The decimal digits of k, most significant first, with no leading zero. */
  function Decimal(k: nat): (s: string)
    ensures |s| >= 1
    ensures forall i :: 0 <= i < |s| ==> '0' <= s[i] <= '9'
  {
    if k < 10 then [DigitChar(k)] else Decimal(k / 10) + [DigitChar(k % 10)]
  }

  /** `s` with '0' characters put in front until it is `width` long; longer strings are kept. */
  function ZeroPad(s: string, width: nat): (r: string)
    ensures |r| == if |s| < width then width else |s|
    decreases width - |s|
  {
    if |s| >= width then s else ZeroPad(['0'] + s, width)
  }

  /** The identifier of the k-th clone, as in "Clone_001", "Clone_096", "Clone_1000". */
  function CloneId(k: nat): (id: string)
    ensures |id| >= 9 && id[..6] == "Clone_"
  {
    "Clone_" + ZeroPad(Decimal(k), 3)
  }

  /** The value of a string of decimal digits, leading zeros allowed. */
  function ParseDecimal(s: string): int {
    if s == [] then 0 else ParseDecimal(s[..|s| - 1]) * 10 + DigitValue(s[|s| - 1])
  }

  /** Padding only puts zeros in front: the original digits end the padded string. */
  lemma {:induction false} ZeroPadShape(s: string, width: nat)
    ensures ZeroPad(s, width)[|ZeroPad(s, width)| - |s|..] == s
    ensures forall i :: 0 <= i < |ZeroPad(s, width)| - |s| ==> ZeroPad(s, width)[i] == '0'
    decreases width - |s|
  {
    if |s| < width {
      ZeroPadShape(['0'] + s, width);
    }
  }

  lemma {:induction false} ParseDecimalOfDecimal(k: nat)
    ensures ParseDecimal(Decimal(k)) == k
  {
    if k >= 10 {
      var s := Decimal(k);
      assert s[..|s| - 1] == Decimal(k / 10);
      ParseDecimalOfDecimal(k / 10);
    }
  }

  lemma {:induction false} ParseDecimalLeadingZero(s: string)
    ensures ParseDecimal(['0'] + s) == ParseDecimal(s)
  {
    if s != [] {
      assert (['0'] + s)[..|s|] == ['0'] + s[..|s| - 1];
      ParseDecimalLeadingZero(s[..|s| - 1]);
    }
  }

  lemma {:induction false} ParseDecimalZeroPad(s: string, width: nat)
    ensures ParseDecimal(ZeroPad(s, width)) == ParseDecimal(s)
    decreases width - |s|
  {
    if |s| < width {
      ParseDecimalZeroPad(['0'] + s, width);
      ParseDecimalLeadingZero(s);
    }
  }

  /** An identifier is "Clone_" and then the clone number's digits, padded with zeros to at
      least three; reading the digits back gives the clone number it was made from. */
  lemma CloneIdRoundTrip(k: nat)
    ensures |CloneId(k)| == 6 + (if |Decimal(k)| < 3 then 3 else |Decimal(k)|)
    ensures forall i :: 6 <= i < |CloneId(k)| ==> '0' <= CloneId(k)[i] <= '9'
    ensures ParseDecimal(CloneId(k)[6..]) == k
  {
    var digits := ZeroPad(Decimal(k), 3);
    assert CloneId(k)[6..] == digits;
    ZeroPadShape(Decimal(k), 3);
    forall i | 0 <= i < |digits| ensures '0' <= digits[i] <= '9' {
      var pad := |digits| - |Decimal(k)|;
      if i >= pad {
        assert digits[i] == digits[pad..][i - pad] == Decimal(k)[i - pad];
      }
    }
    ParseDecimalZeroPad(Decimal(k), 3);
    ParseDecimalOfDecimal(k);
  }

  /** Different clone numbers never share an identifier. */
  lemma CloneIdInjective(i: nat, j: nat)
    ensures CloneId(i) == CloneId(j) <==> i == j
  {
    CloneIdRoundTrip(i);
    CloneIdRoundTrip(j);
  }

  lemma CloneIdOfOne()
    ensures CloneId(1) == "Clone_001"
  {
    assert DigitChar(1) == '1';
    assert Decimal(1) == "1";
    assert ZeroPad("001", 3) == "001";
    assert ['0'] + "01" == "001";
    assert ZeroPad("01", 3) == "001";
    assert ['0'] + "1" == "01";
    assert ZeroPad("1", 3) == "001";
  }

  lemma CloneIdOfNinetySix()
    ensures CloneId(96) == "Clone_096"
  {
    assert Decimal(96) == Decimal(9) + "6" == "96";
    assert ZeroPad("96", 3) == ZeroPad("096", 3) == "096";
  }

  lemma CloneIdOfThousand()
    ensures CloneId(1000) == "Clone_1000"
  {
    assert Decimal(1000) == Decimal(100) + "0" == Decimal(10) + "00" == Decimal(1) + "000" == "1000";
  }
}

=== FILE: rounding.dfy ===
/** Decimal rounding as Python's round(x, n) does it, stated on exact reals:
    the multiple of 10^-n nearest to x, a tie going to the even multiple. */
module Rounding {

  /** Nearest integer to y; a tie (fraction exactly one half) goes to the even neighbour. */
  function RoundHalfEven(y: real): (m: int)
    ensures y - 0.5 <= m as real <= y + 0.5
  {
    var k := y.Floor;
    var f := y - k as real;
    if f < 0.5 then k
    else if f > 0.5 then k + 1
    else if k % 2 == 0 then k
    else k + 1
  }

  /** An integer rounds to itself, and a tie goes to the even neighbour. */
  lemma RoundHalfEvenExactAndTies(y: real)
    ensures y.Floor as real == y ==> RoundHalfEven(y) as real == y
    ensures RoundHalfEven(y) as real == y + 0.5 || RoundHalfEven(y) as real == y - 0.5
            ==> RoundHalfEven(y) % 2 == 0
  {
  }

  lemma {:induction false} RoundHalfEvenMonotone(y1: real, y2: real)
    requires y1 <= y2
    ensures RoundHalfEven(y1) <= RoundHalfEven(y2)
  {
    var k1, k2 := y1.Floor, y2.Floor;
    if k1 < k2 {
      assert RoundHalfEven(y1) <= k1 + 1 <= k2 <= RoundHalfEven(y2);
    }
  }

  /** 10^digits, for the digit counts the screening rounds to (zero to four decimals). */
  function Scale(digits: nat): (s: real)
    requires digits <= 4
    ensures s >= 1.0
  {
    match digits
    case 0 => 1.0
    case 1 => 10.0
    case 2 => 100.0
    case 3 => 1000.0
    case 4 => 10000.0
  }

  /** round(x, digits): off from x by at most half a unit in the last kept decimal. */
  function RoundTo(x: real, digits: nat): (r: real)
    requires digits <= 4
    ensures x - 0.5 / Scale(digits) <= r <= x + 0.5 / Scale(digits)
  {
    var s := Scale(digits);
    RoundHalfEven(x * s) as real / s
  }

  /** Rounding never reorders two values: a larger value never rounds below a smaller one. */
  lemma {:induction false} RoundToMonotone(x1: real, x2: real, digits: nat)
    requires x1 <= x2 && digits <= 4
    ensures RoundTo(x1, digits) <= RoundTo(x2, digits)
  {
    RoundHalfEvenMonotone(x1 * Scale(digits), x2 * Scale(digits));
  }

  /** A rounded value already has at most `digits` decimals: rounding it again changes nothing. */
  lemma {:induction false} RoundToIdempotent(x: real, digits: nat)
    requires digits <= 4
    ensures RoundTo(RoundTo(x, digits), digits) == RoundTo(x, digits)
  {
    RoundHalfEvenExactAndTies(RoundHalfEven(x * Scale(digits)) as real);
  }
}

=== FILE: screening.dfy ===
/** The automated screening campaign: a fixed set of clones taken through seeding (day 0),
    feeding and sampling (day 3) and harvest and analysis (day 7), then ranked by score. */
module Screening {
  import opened Rounding
  import opened CloneIds
  import opened CellLine
  import opened Selection

  const ParentLine: string := "CHO-K1"

  /** One entry of the screening log: what the robot did to one clone on one day. */
  datatype LogEntry =
    | Seeded(cloneId: string, volumeUl: nat, densityCellsMl: real)
    | FedAndSampled(cloneId: string, feedVolumeUl: nat, sampleVolumeUl: nat, density: real, viability: real)
  {
    function Day(): nat {
      if Seeded? then 0 else 3
    }
  }

  /** One row of the day-7 result table. */
  datatype ResultRow = ResultRow(
    cloneId: string,
    titer: real,          // g/L, two decimals
    viability: real,      // %, one decimal
    vcd: real,            // viable cell density in millions per mL, two decimals
    growthRate: real,     // per hour, four decimals
    stable: string,       // "Yes" or "No"
    glycosylation: Glycosylation,
    aggregates: real,     // %, one decimal
    score: real)

  // ---------------------------------------------------------------------------
  // The campaign's clones, one step at a time, as values.

  /** The clones of a new campaign: the i-th (from 0) is named Clone_{i+1} and built from draws(i). */
  function InitialClones(numClones: int, draws: nat -> Draws): (cs: seq<Clone>)
    ensures |cs| == if numClones > 0 then numClones else 0
    ensures forall i :: 0 <= i < |cs| ==>
              && cs[i].id == CloneId(i + 1)
              && cs[i].parent == ParentLine
              && Unobserved(cs[i])
              && WellFormed(cs[i])
              && cs[i].stability == draws(i).stability
              && cs[i].glycosylationPattern == draws(i).glycosylationPattern
              && cs[i].aggregationLevel == draws(i).aggregationLevel
    ensures forall i :: 0 <= i < |cs| ==> cs[i] == NewClone(CloneId(i + 1), ParentLine, draws(i))
  {
    var cs := seq(if numClones > 0 then numClones else 0,
                  i requires 0 <= i => NewClone(CloneId(i + 1), ParentLine, draws(i)));
    assert forall i :: 0 <= i < |cs| ==> cs[i] == NewClone(CloneId(i + 1), ParentLine, draws(i));
    cs
  }

  /** The identifiers of a sequence of clones, in order. */
  function Ids(cs: seq<Clone>): (ids: seq<string>)
    ensures |ids| == |cs| && forall i :: 0 <= i < |cs| ==> ids[i] == cs[i].id
  {
    seq(|cs|, i requires 0 <= i < |cs| => cs[i].id)
  }

  /** No two clones share an identifier. */
  predicate DistinctIds(cs: seq<Clone>) {
    forall i, j :: 0 <= i < j < |cs| ==> cs[i].id != cs[j].id
  }

  /** A new campaign names its clones Clone_001, Clone_002, ...: no name is used twice. */
  lemma {:induction false} InitialClonesDistinct(numClones: int, draws: nat -> Draws)
    ensures DistinctIds(InitialClones(numClones, draws))
  {
    var cs := InitialClones(numClones, draws);
    forall i, j | 0 <= i < j < |cs| ensures cs[i].id != cs[j].id {
      CloneIdInjective(i + 1, j + 1);
    }
  }

  /** The day-0 log entry of a clone: 200 uL seeded at its day-0 density. */
  function SeedEntry(c: Clone): (e: LogEntry)
    ensures e.Day() == 0 && e.cloneId == c.id
    ensures e.Seeded? && e.volumeUl == 200 && e.densityCellsMl == c.day0Density
  {
    Seeded(c.id, 200, c.day0Density)
  }

  /** Day 3 for one clone: day3Density becomes grow(3)'s density, and nothing else changes. */
  function Feed(c: Clone, exp: real -> real): (f: Clone)
    ensures f.day3Density == Some(Grow(c, 3.0, exp).density)
    ensures f.(day3Density := c.day3Density) == c
    ensures WellFormed(c) ==> WellFormed(f)
  {
    c.(day3Density := Some(Grow(c, 3.0, exp).density))
  }

  /** The day-3 log entry of a clone: 50 uL fed, 50 uL sampled, grow(3)'s density and viability. */
  function FeedEntry(c: Clone, exp: real -> real): (e: LogEntry)
    ensures e.Day() == 3 && e.cloneId == c.id
    ensures e.FedAndSampled? && e.feedVolumeUl == 50 && e.sampleVolumeUl == 50
    ensures e.density == Grow(c, 3.0, exp).density && e.viability == Grow(c, 3.0, exp).viability
    ensures e.density <= PeakDensity && e.viability >= ViabilityFloor
  {
    var reading := Grow(c, 3.0, exp);
    FedAndSampled(c.id, 50, 50, reading.density, reading.viability)
  }

  /** Day 7 for one clone: the three day-7 observations are set from grow(7) and
      produce_antibody(7) with this clone's noise draw, within their bounds; nothing else changes. */
  function Harvest(c: Clone, exp: real -> real, noise: real): (h: Clone)
    ensures h.day7Density == Some(Grow(c, 7.0, exp).density)
    ensures h.day7Viability == Some(Grow(c, 7.0, exp).viability)
    ensures h.day7Titer == Some(ProduceAntibody(c, 7.0, noise, exp))
    ensures h.day7Density.value <= PeakDensity
    ensures h.day7Viability.value >= ViabilityFloor
    ensures h.day7Titer.value >= TiterFloor
    ensures h.(day7Density := c.day7Density, day7Viability := c.day7Viability, day7Titer := c.day7Titer) == c
    ensures WellFormed(c) ==> WellFormed(h)
  {
    var reading := Grow(c, 7.0, exp);
    var titer := ProduceAntibody(c, 7.0, noise, exp);
    c.(day7Density := Some(reading.density), day7Viability := Some(reading.viability), day7Titer := Some(titer))
  }

  predicate Harvested(c: Clone) {
    c.day7Density.Some? && c.day7Viability.Some? && c.day7Titer.Some?
  }

  /** The result row of a harvested clone: its observations at display precision and its score.
      Rounding keeps the model's bounds: titer at least 0.1, viability at least 60, at most 8
      million cells per mL. */
  function Row(h: Clone): (row: ResultRow)
    requires Harvested(h)
    ensures row.cloneId == h.id && row.score == Score(h)
    ensures h.day7Titer.value >= TiterFloor ==> row.titer >= TiterFloor
    ensures h.day7Viability.value >= ViabilityFloor ==> row.viability >= ViabilityFloor
    ensures h.day7Density.value <= PeakDensity ==> row.vcd <= 8.0
    ensures row.stable == (if h.stability then "Yes" else "No")
    ensures row.glycosylation == h.glycosylationPattern
    ensures row.titer == RoundTo(h.day7Titer.value, 2) && row.viability == RoundTo(h.day7Viability.value, 1)
    ensures row.vcd == RoundTo(h.day7Density.value / 1000000.0, 2)
    ensures row.growthRate == RoundTo(h.growthRate, 4) && row.aggregates == RoundTo(h.aggregationLevel, 1)
  {
    var titer, viability, density := h.day7Titer.value, h.day7Viability.value, h.day7Density.value;
    DisplayRoundingKeepsBounds(titer, viability, density);
    ResultRow(h.id,
              RoundTo(titer, 2),
              RoundTo(viability, 1),
              RoundTo(density / 1000000.0, 2),
              RoundTo(h.growthRate, 4),
              if h.stability then "Yes" else "No",
              h.glycosylationPattern,
              RoundTo(h.aggregationLevel, 1),
              Score(h))
  }

  /** Rounding for display keeps the bounds of the model: a titer of at least 0.1 g/L still
      shows at least 0.1, a viability of at least 60 % at least 60, a density of at most
      8e6 cells per mL at most 8 million. */
  lemma DisplayRoundingKeepsBounds(titer: real, viability: real, density: real)
    ensures titer >= TiterFloor ==> RoundTo(titer, 2) >= TiterFloor
    ensures viability >= ViabilityFloor ==> RoundTo(viability, 1) >= ViabilityFloor
    ensures density <= PeakDensity ==> RoundTo(density / 1000000.0, 2) <= 8.0
  {
    if titer >= TiterFloor {
      RoundToMonotone(TiterFloor, titer, 2);
      assert RoundHalfEven(TiterFloor * 100.0) == 10;
    }
    if viability >= ViabilityFloor {
      RoundToMonotone(ViabilityFloor, viability, 1);
      assert RoundHalfEven(ViabilityFloor * 10.0) == 600;
    }
    if density <= PeakDensity {
      RoundToMonotone(density / 1000000.0, 8.0, 2);
      assert RoundHalfEven(8.0 * 100.0) == 800;
    }
  }

  // ---------------------------------------------------------------------------
  // A day step over all clones, in clone order, as a function of the clones before it.

  /** The day-0 log entries: one per clone, in clone order. */
  function SeedLog(cs: seq<Clone>): (log: seq<LogEntry>)
    ensures |log| == |cs|
    ensures forall i :: 0 <= i < |cs| ==> log[i] == SeedEntry(cs[i])
  {
    seq(|cs|, i requires 0 <= i < |cs| => SeedEntry(cs[i]))
  }

  /** The day-3 log entries: one per clone, in clone order. */
  function FeedLog(cs: seq<Clone>, exp: real -> real): (log: seq<LogEntry>)
    ensures |log| == |cs|
    ensures forall i :: 0 <= i < |cs| ==> log[i] == FeedEntry(cs[i], exp)
  {
    seq(|cs|, i requires 0 <= i < |cs| => FeedEntry(cs[i], exp))
  }

  /** The clones after day 3: each one fed, in place. */
  function FedClones(cs: seq<Clone>, exp: real -> real): (fed: seq<Clone>)
    ensures |fed| == |cs|
    ensures forall i :: 0 <= i < |cs| ==> fed[i] == Feed(cs[i], exp)
  {
    seq(|cs|, i requires 0 <= i < |cs| => Feed(cs[i], exp))
  }

  /** The clones after day 7: the i-th harvested with the i-th noise draw. */
  function HarvestedClones(cs: seq<Clone>, exp: real -> real, noise: nat -> real): (hs: seq<Clone>)
    ensures |hs| == |cs|
    ensures forall i :: 0 <= i < |cs| ==> hs[i] == Harvest(cs[i], exp, noise(i))
  {
    seq(|cs|, i requires 0 <= i < |cs| => Harvest(cs[i], exp, noise(i)))
  }

  /** The day-7 result table: one row per harvested clone, in clone order. */
  function ResultTable(hs: seq<Clone>): (df: seq<ResultRow>)
    requires forall i :: 0 <= i < |hs| ==> Harvested(hs[i])
    ensures |df| == |hs|
    ensures forall i :: 0 <= i < |hs| ==> df[i] == Row(hs[i])
  {
    seq(|hs|, i requires 0 <= i < |hs| => Row(hs[i]))
  }

  /** Day 3 keeps every clone's name and keeps it well-formed. */
  lemma {:induction false} FedClonesKeepInvariant(cs: seq<Clone>, exp: real -> real)
    requires forall i :: 0 <= i < |cs| ==> WellFormed(cs[i])
    ensures Ids(FedClones(cs, exp)) == Ids(cs)
    ensures DistinctIds(cs) ==> DistinctIds(FedClones(cs, exp))
    ensures forall i :: 0 <= i < |cs| ==> WellFormed(FedClones(cs, exp)[i])
  {
    var fed := FedClones(cs, exp);
    forall i | 0 <= i < |cs| ensures fed[i].id == cs[i].id && WellFormed(fed[i]) {
      assert fed[i] == Feed(cs[i], exp);
    }
    assert Ids(fed) == Ids(cs);
  }

  /** After day 7 every clone is harvested within the model's bounds, keeps its name, and its
      row scores between 0.091 and 1.098. */
  lemma {:induction false} HarvestedClonesInRange(cs: seq<Clone>, exp: real -> real, noise: nat -> real)
    requires forall i :: 0 <= i < |cs| ==> WellFormed(cs[i])
    ensures forall i :: 0 <= i < |cs| ==>
              && Harvested(HarvestedClones(cs, exp, noise)[i])
              && WellFormed(HarvestedClones(cs, exp, noise)[i])
              && HarvestedClones(cs, exp, noise)[i].id == cs[i].id
    ensures forall i :: 0 <= i < |cs| ==>
              0.091 <= ResultTable(HarvestedClones(cs, exp, noise))[i].score <= 1.098
    ensures DistinctIds(cs) ==> DistinctIds(HarvestedClones(cs, exp, noise))
  {
    var hs := HarvestedClones(cs, exp, noise);
    forall i | 0 <= i < |cs| ensures 0.091 <= ResultTable(hs)[i].score <= 1.098 {
      HarvestedScoreRange(hs[i]);
    }
  }

  // ---------------------------------------------------------------------------
  // Selection.

  /** The Score column of a result table. */
  function Scores(df: seq<ResultRow>): (keys: seq<real>)
    ensures |keys| == |df| && forall i :: 0 <= i < |df| ==> keys[i] == df[i].score
  {
    seq(|df|, i requires 0 <= i < |df| => df[i].score)
  }

  /** select_top_clones: the nlargest(n) rows by Score, keeping the first of equal scores.
      The k-th row taken is row idx[k] of the table, for distinct row numbers idx; the rows
      come in non-increasing score order; every row left out scores lower than every row
      taken, or the same but comes later in the table. */
  function SelectTopClones(df: seq<ResultRow>, n: int): (top: seq<ResultRow>)
    ensures |top| == TopCount(n, |df|)
    ensures forall a, b :: 0 <= a < b < |top| ==> top[a].score >= top[b].score
    ensures var idx := TopIndices(Scores(df), n);
            && (forall k :: 0 <= k < |top| ==> idx[k] < |df| && top[k] == df[idx[k]])
            && (forall a, b :: 0 <= a < b < |top| ==> idx[a] != idx[b])
            && (forall k, j :: 0 <= k < |top| && 0 <= j < |df| && j !in idx ==>
                  top[k].score > df[j].score || (top[k].score == df[j].score && idx[k] < j))
  {
    var idx := TopIndices(Scores(df), n);
    TopIndicesOrder(Scores(df), n);
    forall a, b | 0 <= a < b < |idx| ensures idx[a] != idx[b] {
      BeforeOrder(Scores(df), idx[a], idx[a], idx[a]);
    }
    seq(|idx|, k requires 0 <= k < |idx| => df[idx[k]])
  }

  /** When the table names each clone once, so does the selection. */
  lemma {:induction false} SelectedIdsDistinct(df: seq<ResultRow>, n: int)
    requires forall i, j :: 0 <= i < j < |df| ==> df[i].cloneId != df[j].cloneId
    ensures forall a, b :: 0 <= a < b < |SelectTopClones(df, n)| ==>
              SelectTopClones(df, n)[a].cloneId != SelectTopClones(df, n)[b].cloneId
  {
    var idx := TopIndices(Scores(df), n);
    var top := SelectTopClones(df, n);
    forall a, b | 0 <= a < b < |top| ensures top[a].cloneId != top[b].cloneId {
      assert top[a] == df[idx[a]] && top[b] == df[idx[b]];
    }
  }

  // ---------------------------------------------------------------------------
  // The campaign object.

  class AutomatedScreening {
    const numClones: int
    const plateFormat: string
    var clones: seq<Clone>
    var screeningLog: seq<LogEntry>

    /** The campaign holds max(numClones, 0) well-formed clones, no two with the same name. */
    ghost predicate Valid()
      reads this`clones
    {
      && |clones| == (if numClones > 0 then numClones else 0)
      && DistinctIds(clones)
      && (forall i :: 0 <= i < |clones| ==> WellFormed(clones[i]))
    }

    /** A new campaign: its clones built in order from the draws, an empty log. */
    constructor (numClones: int, plateFormat: string, draws: nat -> Draws)
      ensures Valid()
      ensures this.numClones == numClones && this.plateFormat == plateFormat
      ensures clones == InitialClones(numClones, draws)
      ensures screeningLog == []
    {
      this.numClones := numClones;
      this.plateFormat := plateFormat;
      clones := InitialClones(numClones, draws);
      screeningLog := [];
      InitialClonesDistinct(numClones, draws);
    }

    /** Day 0: one seeding entry per clone, in clone order, appended to the log; no clone changes. */
    method Day0SeedPlates()
      requires Valid()
      modifies this`screeningLog
      ensures Valid()
      ensures screeningLog == old(screeningLog) + SeedLog(clones)
    {
      ghost var log0 := screeningLog;
      var i := 0;
      while i < |clones|
        invariant 0 <= i <= |clones|
        invariant screeningLog == log0 + SeedLog(clones[..i])
      {
        assert clones[..i + 1][..i] == clones[..i];
        screeningLog := screeningLog + [SeedEntry(clones[i])];
        i := i + 1;
      }
      assert clones[..i] == clones;
    }

    /** Day 3: every clone fed in clone order (its day3Density set, nothing else of it changed),
        one feed-and-sample entry per clone appended to the log in the same order. */
    method Day3FeedAndSample(exp: real -> real)
      requires Valid()
      modifies this
      ensures Valid()
      ensures clones == FedClones(old(clones), exp)
      ensures screeningLog == old(screeningLog) + FeedLog(old(clones), exp)
    {
      ghost var clones0, log0 := clones, screeningLog;
      var n := |clones|;
      var i := 0;
      while i < n
        invariant 0 <= i <= n == |clones0|
        invariant |clones| == n
        invariant forall k :: 0 <= k < i ==> clones[k] == Feed(clones0[k], exp)
        invariant forall k :: i <= k < n ==> clones[k] == clones0[k]
        invariant screeningLog == log0 + FeedLog(clones0[..i], exp)
      {
        var clone := clones[i];
        screeningLog := screeningLog + [FeedEntry(clone, exp)];
        clones := clones[i := Feed(clone, exp)];
        i := i + 1;
      }
      assert clones0[..i] == clones0;
      FedClonesKeepInvariant(clones0, exp);
    }

    /** Day 7: every clone harvested in clone order with its own noise draw, and one result row
        per clone, in the same order, taken from the clone after its update. */
    method Day7HarvestAndAnalyze(exp: real -> real, noise: nat -> real) returns (results: seq<ResultRow>)
      requires Valid()
      modifies this`clones
      ensures Valid()
      ensures clones == HarvestedClones(old(clones), exp, noise)
      ensures forall i :: 0 <= i < |clones| ==> Harvested(clones[i])
      ensures results == ResultTable(clones)
    {
      ghost var clones0 := clones;
      results := [];
      var n := |clones|;
      var i := 0;
      while i < n
        invariant 0 <= i <= n == |clones0|
        invariant |clones| == n
        invariant forall k :: 0 <= k < i ==> clones[k] == Harvest(clones0[k], exp, noise(k))
        invariant forall k :: i <= k < n ==> clones[k] == clones0[k]
        invariant |results| == i
        invariant forall k :: 0 <= k < i ==> Harvested(clones[k]) && results[k] == Row(clones[k])
      {
        var clone := Harvest(clones[i], exp, noise(i));
        clones := clones[i := clone];
        results := results + [Row(clone)];
        i := i + 1;
      }
      HarvestedClonesInRange(clones0, exp, noise);
    }

    /** The whole protocol as the campaign runs it: day 0, day 3, day 7, then the ten best by
        score. The log gains the day-0 entries and then the day-3 entries, each in clone order;
        the result table has one row per clone, in clone order; the selection names distinct
        clones of the table. */
    method RunFullScreeningCampaign(exp: real -> real, noise: nat -> real)
      returns (results: seq<ResultRow>, top: seq<ResultRow>)
      requires Valid()
      modifies this
      ensures Valid()
      ensures clones == HarvestedClones(FedClones(old(clones), exp), exp, noise)
      ensures screeningLog == old(screeningLog) + SeedLog(old(clones)) + FeedLog(old(clones), exp)
      ensures results == ResultTable(clones)
      ensures forall i :: 0 <= i < |results| ==> 0.091 <= results[i].score <= 1.098
      ensures top == SelectTopClones(results, 10)
      ensures forall a, b :: 0 <= a < b < |top| ==> top[a].cloneId != top[b].cloneId
    {
      Day0SeedPlates();
      Day3FeedAndSample(exp);
      ghost var fed := clones;
      results := Day7HarvestAndAnalyze(exp, noise);
      HarvestedClonesInRange(fed, exp, noise);
      SelectedIdsDistinct(results, 10);
      top := SelectTopClones(results, 10);
    }
  }
}

=== FILE: selection.dfy ===
/** Top-n selection by a numeric column, as a data frame's nlargest does it with
    keep='first': rows in descending key order, the earlier row first among equal keys,
    and only the first n of that order kept. Rows are named by their indices. */
module Selection {

  /** In nlargest order row i comes before row j: a higher key first, the earlier row first on a tie. */
  predicate Before(keys: seq<real>, i: nat, j: nat)
    requires i < |keys| && j < |keys|
  {
    keys[i] > keys[j] || (keys[i] == keys[j] && i < j)
  }

  /** `s` lists rows of `keys`, each one before every row listed after it (so no row twice). */
  predicate Ranked(keys: seq<real>, s: seq<nat>) {
    && (forall k :: 0 <= k < |s| ==> s[k] < |keys|)
    && (forall a, b :: 0 <= a < b < |s| ==> Before(keys, s[a], s[b]))
  }

  /** Before is a strict total order on the rows. */
  lemma BeforeOrder(keys: seq<real>, i: nat, j: nat, k: nat)
    requires i < |keys| && j < |keys| && k < |keys|
    ensures !Before(keys, i, i)
    ensures i != j ==> Before(keys, i, j) || Before(keys, j, i)
    ensures Before(keys, i, j) && Before(keys, j, k) ==> Before(keys, i, k)
  {
  }

  /** Row x put into its place in a ranked list that does not hold it yet. */
  function Insert(keys: seq<real>, x: nat, s: seq<nat>): (r: seq<nat>)
    requires x < |keys| && Ranked(keys, s) && x !in s
    ensures Ranked(keys, r)
    ensures |r| == |s| + 1
    ensures forall i :: i in r <==> i == x || i in s
  {
    if s == [] then [x]
    else if Before(keys, x, s[0]) then
      assert forall b :: 0 <= b < |s| ==> Before(keys, x, s[b]) by {
        forall b | 0 <= b < |s| ensures Before(keys, x, s[b]) {
          BeforeOrder(keys, x, s[0], s[b]);
        }
      }
      [x] + s
    else
      var rest := Insert(keys, x, s[1..]);
      assert forall e :: e in rest ==> Before(keys, s[0], e) by {
        forall e | e in rest ensures Before(keys, s[0], e) {
          BeforeOrder(keys, x, s[0], s[0]);
          if e != x {
            var b :| 0 <= b < |s[1..]| && s[1..][b] == e;
            assert s[b + 1] == e;
          }
        }
      }
      assert forall b :: 0 <= b < |rest| ==> rest[b] in rest;
      [s[0]] + rest
  }

  /** Rows 0 .. m-1 in nlargest order. */
  function RankFirst(keys: seq<real>, m: nat): (r: seq<nat>)
    requires m <= |keys|
    ensures Ranked(keys, r)
    ensures |r| == m
    ensures forall i :: i in r <==> 0 <= i < m
  {
    if m == 0 then [] else Insert(keys, m - 1, RankFirst(keys, m - 1))
  }

  /** How many rows nlargest(n) keeps: none for n <= 0, otherwise min(n, number of rows). */
  function TopCount(n: int, rows: nat): (c: nat)
    ensures c <= rows
    ensures n >= 0 ==> c <= n
    ensures 0 < n <= rows ==> c == n
    ensures n <= 0 ==> c == 0
    ensures n >= rows ==> c == rows
  {
    if n <= 0 then 0 else if n < rows then n else rows
  }

  /** The rows nlargest(n) keeps, in the order it returns them. */
  function TopIndices(keys: seq<real>, n: int): (r: seq<nat>)
    ensures |r| == TopCount(n, |keys|)
    ensures Ranked(keys, r)
    ensures forall i, j :: i in r && 0 <= j < |keys| && j !in r ==> Before(keys, i, j)
  {
    var all := RankFirst(keys, |keys|);
    var top := all[..TopCount(n, |keys|)];
    assert forall i, j :: i in top && 0 <= j < |keys| && j !in top ==> Before(keys, i, j) by {
      forall i, j | i in top && 0 <= j < |keys| && j !in top
        ensures Before(keys, i, j)
      {
        var p :| 0 <= p < |top| && top[p] == i;
        assert j in all;
        var q :| 0 <= q < |all| && all[q] == j;
        assert p < q;
      }
    }
    top
  }

  /** The selected keys are in non-increasing order, and no row was passed over for a row
      with a lower key, or for a later row with an equal key. */
  lemma {:induction false} TopIndicesOrder(keys: seq<real>, n: int)
    ensures forall a, b :: 0 <= a < b < |TopIndices(keys, n)| ==>
              keys[TopIndices(keys, n)[a]] >= keys[TopIndices(keys, n)[b]]
    ensures forall a, j :: 0 <= a < |TopIndices(keys, n)| && 0 <= j < |keys| && j !in TopIndices(keys, n) ==>
              keys[TopIndices(keys, n)[a]] > keys[j] ||
              (keys[TopIndices(keys, n)[a]] == keys[j] && TopIndices(keys, n)[a] < j)
  {
    var r := TopIndices(keys, n);
    forall a, j | 0 <= a < |r| && 0 <= j < |keys| && j !in r
      ensures Before(keys, r[a], j)
    {
      assert r[a] in r;
    }
  }
}
